=== FILE: README.md ===
# python-netsnmpagent, modelled in Dafny

python-netsnmpagent lets a Python program act as an AgentX sub-agent of
net-snmp. The program declares SNMP variables under OIDs. Each variable is
a ctypes cell that net-snmp's watcher helper reads on GET and writes on
SET, and Python reads and updates the same cell. This project models the
core of that wrapper and proves what it does with the values passing
through it:

- `netsnmpvartypes.py` is the family of scalar variable classes.
  - The fixed-size integer types are `FixedVar`, tagged with their kind.
  - `Counter64Var` holds a `counter64` structure.
  - `TruthValue` stores RFC 2579 true(1) and false(2).
  - `IpAddress` keeps a dotted quad as a 32-bit word.
  - The string types are `StringVar`, holding a 1024-character C buffer.

  Each one is a class whose methods update its cell in place.
- `netsnmpapi.py` supplies the `counter64` structure and `UINT_MAX`. The
  structure splits a value into `high` and `low` words by dividing by
  UINT_MAX.
- `netsnmpagent.py` supplies the `netsnmpAgent` object: its
  configuration, the MIB files it reads, `oidstr2oid`, and the property
  functions and `register_and_define_class` behind `Integer32()` …
  `DisplayString()`. It also supplies `getVars()` and `start()`.

Supporting modules:

- `PyRuntime` covers the Python behaviour the code relies on:
  - `isnum`
  - `int()`
  - truthiness
  - decimal `str()`
  - `str.format` with a single `{0}` field
  - the exceptions that are raised
- `CTypes` covers ctypes storage on an LP64 host:
  - integer assignment keeps the low bits and reads them back as signed or
    unsigned
  - a `c_char` array's `.value` is written with a terminating NUL and read
    up to the first NUL
- `DottedQuad` covers `socket.inet_aton`/`inet_ntoa` and
  `struct.pack`/`unpack` of an unsigned 32-bit word on a little-endian
  host.

Calls into net-snmp are not modelled as code. Their results are
parameters instead:

- the reply of `read_objid`
- the status of `netsnmp_register_watched_instance`
- the return values of `init_agent` and `read_mib`
- whether the library loads

The model assumes one thing of net-snmp's side: when `read_objid`
succeeds, it reports a length that fits the MAX_OID_LEN buffer it was
given (`Agent.LibraryContract`, a precondition of `Agent.Oidstr2Oid` and
`Agent.NetSnmpAgent.Register`). The bound `Oidstr2Oid` reports on the
OID length follows from that assumption. It is not proved of the library.

A registration also returns the sequence of net-snmp calls it makes and
their arguments, so the contract states what net-snmp is asked to do.

## Model

| member | source | states |
|---|---|---|
| PyRuntime.IsNum | netsnmpvartypes.py:16-21 | a value counts as a number exactly when adding 1 to it does not raise, which holds for ints and bools |
| PyRuntime.ReadValue | netsnmpvartypes.py:26-38 | a numeric cell value is returned as an int (never as a bool); anything else is returned unchanged |
| CTypes.Store | netsnmpvartypes.py:59-60 | storing into a C integer cell gives a value in the type's range, congruent to the input modulo 2^bits, and equal to the input when it fits |
| CTypes.UntilNulOfWritten | netsnmpvartypes.py:204-205 | after a string that fits is written into a char buffer, reading `.value` gives the string up to its first NUL, whatever the buffer held before |
| NetSnmpApi.SetThenGet | netsnmpapi.py:161-169 | for every value in range, the setter stores the quotient and remainder by UINT_MAX, `low` stays below UINT_MAX, and the getter returns the value |
| NetSnmpApi.GetterNonNegative | netsnmpapi.py:162-164 | the getter never reports a negative number for any pair of stored words |
| NetSnmpApi.NetSnmpReading | netsnmpapi.py:14-14 | reading the words as net-snmp does (high·2^32 + low) exceeds the value by the quotient, because the split is by UINT_MAX and not by 2^32 |
| NetSnmpApi.Counter64.SetValue | netsnmpapi.py:166-169 | the words hold the 64-bit truncations of the split; in range, the getter gives the value back and `low` < UINT_MAX |
| NetSnmpApi.Counter64.constructor | netsnmpapi.py:171-173 | both words start at zero and the initial value goes through the setter |
| VarTypes.FixedVar.constructor | netsnmpvartypes.py:43-54 | the cell holds the initial value as its C type stores it; data size and maximum size are `sizeof` the C type, and the flags are WATCHER_FIXED_SIZE |
| VarTypes.FixedVar.Value | netsnmpvartypes.py:26-38 | the value is the integer the cell holds |
| VarTypes.Counter32Updated | netsnmpvartypes.py:80-84 | Counter32 keeps the value modulo 2^32, and keeps it unchanged when it fits |
| VarTypes.Gauge32Updated | netsnmpvartypes.py:110-114 | Gauge32 keeps a value in [0, 2^32) and saturates anything else to 0xFFFFFFFF |
| VarTypes.Updated | netsnmpvartypes.py:59-60 | every kind leaves a value its C type can hold; Counter32 and Gauge32 adjust first, the others are stored as ctypes stores them |
| VarTypes.FixedVar.Update | netsnmpvartypes.py:59-60 | the new cell is the kind's update rule applied to the value |
| VarTypes.FixedVar.Increment | netsnmpvartypes.py:86-87 | the new cell is the update rule applied to old value + count; for Counter32 that is the sum modulo 2^32 |
| VarTypes.Counter64Updated | netsnmpvartypes.py:95-99 | Counter64 keeps the value modulo 2^64, and keeps it unchanged when it fits |
| VarTypes.Counter64Var.constructor | netsnmpvartypes.py:89-93 | the structure is built from the initial value, and an initial value in [0, 2^64) reads back unchanged |
| VarTypes.Counter64Var.Update | netsnmpvartypes.py:95-99 | after the update the variable reads back the value modulo 2^64 |
| VarTypes.Counter64Var.Increment | netsnmpvartypes.py:101-102 | after incrementing, the variable reads back (old value + count) modulo 2^64 |
| VarTypes.TruthValue.constructor | netsnmpvartypes.py:128-131 | the variable reads back as the truthiness of the initial value |
| VarTypes.TruthValue.Value | netsnmpvartypes.py:133-134 | the value is True exactly when the cell holds TV_TRUE (1) |
| VarTypes.TruthValue.Update | netsnmpvartypes.py:136-140 | a bool is accepted and reads back unchanged; anything else raises the TruthValue exception and leaves the cell alone |
| VarTypes.AddressWord | netsnmpvartypes.py:175-181 | an empty or false value becomes the zero word; a non-empty string is accepted exactly when `inet_aton` accepts it, and the word shows as that string again; a refused string raises `socket.error`, and a true value that is not a string raises TypeError |
| VarTypes.IpAddress.Create | netsnmpvartypes.py:151-155 | construction succeeds exactly when the initial value converts to a word, stores that word, and otherwise raises the conversion's error |
| VarTypes.IpAddress.Value | netsnmpvartypes.py:157-161 | the value is a dotted quad that converts back to the stored word |
| VarTypes.IpAddress.Cref | netsnmpvartypes.py:163-173 | a table index passes the word with its octets reversed (swapping it again gives the stored word); otherwise the stored word is passed |
| VarTypes.IpAddress.Update | netsnmpvartypes.py:175-181 | the cell becomes the converted word, or stays unchanged and the conversion's error is raised; a dotted quad reads back unchanged |
| VarTypes.StringVar.constructor | netsnmpvartypes.py:186-199 | a 1024-character buffer receives the initial value; the data size is the value's length (OctetString) or its C string length (DisplayString) |
| VarTypes.StringVar.Create | netsnmpvartypes.py:213-233 | an initial value longer than MAX_STRING_SIZE raises ValueError; otherwise the new variable reads back the initial value |
| VarTypes.StringVar.Value | netsnmpvartypes.py:235-241 | an OctetString gives the first data-size characters of the buffer; a DisplayString gives the buffer up to its first NUL |
| VarTypes.StringVar.Update | netsnmpvartypes.py:204-211 | a value that is not a string raises TypeError and changes nothing; a value too long for the buffer raises ValueError and changes nothing; a longer one than max size is written and then raises the truncation exception; otherwise the data size is set and the value reads back unchanged |
| DottedQuad.NtoaThenAton | netsnmpvartypes.py:157-161 | every four octets survive `inet_ntoa` followed by `inet_aton` |
| DottedQuad.AtonThenNtoa | netsnmpvartypes.py:175-181 | every string `inet_aton` accepts is given back by `inet_ntoa` |
| DottedQuad.ShowWordOf | netsnmpvartypes.py:175-181 | a dotted quad stored as a word reads back as the same string |
| DottedQuad.WordOfShow | netsnmpvartypes.py:157-161 | every 32-bit word is the stored form of the string it reads back as |
| DottedQuad.ZeroAddress | netsnmpvartypes.py:151-151 | the default "0.0.0.0" is the zero word, and the zero word reads back as "0.0.0.0" |
| DottedQuad.SwapSwap | netsnmpvartypes.py:171-172 | converting to and from network byte order twice gives the word back |
| DottedQuad.SwapOctets | netsnmpvartypes.py:171-172 | the swapped word has the stored word's octets in reverse order |
| Agent.Properties | netsnmpagent.py:306-380 | each declaration's properties: writable exactly when asked for, which is the default when `writable` is left out (never for Counter32); the string types use WATCHER_SIZE_STRLEN, MAX_STRING_SIZE and "", the others WATCHER_FIXED_SIZE and 0 |
| Agent.HandlerModes | netsnmpagent.py:217-219 | GET is always allowed, and SET exactly when the type is writable |
| Agent.HandlerModesOf | netsnmpagent.py:38-41 | a declaration registers as 0x03 when writable and 0x01 otherwise; one that leaves `writable` out registers as 0x03; Counter32 is always HANDLER_CAN_RONLY |
| Agent.WatcherSizesOf | netsnmpagent.py:233-253 | fixed-size types are watched at sizeof their C type (4 for IPAddress, 8 otherwise); string types start at size 0 with room for MAX_STRING_SIZE in a NUL-filled buffer |
| Agent.Oidstr2Oid | netsnmpagent.py:139-163 | a zero status from `read_objid` raises "read_objid(…) failed!" with the OID string; otherwise exactly the reported number of sub-identifiers is copied from the front of the buffer |
| Agent.NormaliseMibFiles | netsnmpagent.py:91-92 | a single MIB file becomes a one-element tuple; lists, tuples and None pass unchanged |
| Agent.ReadMibMessage | netsnmpagent.py:131-133 | the message names the MIB file that could not be read |
| Agent.ReadMibMessageAsWrittenIsConstant | netsnmpagent.py:132-133 | the message as the code builds it is the same constant for every file and keeps a literal "{0}" |
| Agent.ReadMibMessageAsWrittenLosesName | netsnmpagent.py:132-133 | the message as the code builds it differs from the intended one for every file name except "{0}" itself |
| Agent.FirstUnreadable | netsnmpagent.py:129-133 | finds the first MIB file `read_mib` rejects; none exists exactly when every file is read |
| Agent.NetSnmpAgent.Configure | netsnmpagent.py:84-92 | each setting is the given argument or its default, MIBFiles is normalised, and the registry is empty and open |
| Agent.NetSnmpAgent.Create | netsnmpagent.py:64-137 | construction fails exactly when loading, `init_agent` or some `read_mib` fails, with the first failure's exception (for a MIB file, the message as the code builds it); otherwise a new agent with the given or default settings and an empty, open registry |
| Agent.FirstUnreadableAt | netsnmpagent.py:130-133 | the file the reading loop stops at, the first one `read_mib` rejects after every earlier one was read, is the one the constructor reports |
| Agent.InitErrorForMibs | netsnmpagent.py:129-133 | once the library is up, construction fails exactly when some MIB file is unreadable, and then always with "netsnmp_read_module({0}) failed!", whichever file it was |
| Agent.SnmpVar.Value | netsnmpagent.py:285-286 | an integer cell reads as its integer; a buffer reads as its contents up to the first NUL (a NUL-free prefix followed by a NUL or the end of the buffer) |
| Agent.SnmpVar.Update | netsnmpagent.py:288-289 | an integer cell stores a number as ctypes does and raises TypeError for anything else; a buffer raises TypeError for a non-string and ValueError for a string too long, and otherwise receives the string with a terminating NUL where there is room, so a NUL-free string reads back unchanged; a refused value leaves the cell alone |
| Agent.NetSnmpAgent.Register | netsnmpagent.py:191-302 | refused after start with no native call; an unresolvable OID raises after `read_objid` only; otherwise the handler registration and watcher calls are made, and the variable is recorded under its OID string with its initial cell exactly when net-snmp accepts it |
| Agent.NetSnmpAgent.GetVars | netsnmpagent.py:382-391 | exactly the registered OID strings, each with its variable's type name and current value |
| Agent.NetSnmpAgent.Start | netsnmpagent.py:393-397 | registration is closed, and the registry and configuration are unchanged |

## Left out

- `Float` is not modelled, because floating point is outside the model.
- Loading the libraries and declaring the ctypes prototypes in `netsnmpapi.py` are left out. Only the library-loaded flag is kept, as a parameter of `Agent.NetSnmpAgent.Create`.
- `snmp_enable_stderrlog`, the AgentX role switch, the MasterSocket setting, `netsnmp_init_mib` and `init_snmp` are left out. They only configure net-snmp. MasterSocket is recorded but not passed on.
- `poll()` and `__del__` are left out. They only pass control to net-snmp's event loop and shutdown.
- The default AgentName is the parameter `scriptName`. It stands for the script's base name without extension, which the code takes from `sys.argv[0]`.
- What net-snmp writes into a watched cell on an SNMP SET is not modelled. Nor is how the watcher adjusts data sizes.
- The `cref()` methods hand net-snmp references to the cells. Only the word `IpAddress.cref` passes (`VarTypes.IpAddress.Cref`) is modelled.
- Agent.SnmpVar.Update: the string buffer of a registered variable is a sequence value, not a shared array. Aliasing between the Python object and net-snmp is not captured.
- `inet_aton` is modelled as accepting only canonical dotted quads: four decimal fields of 0-255 with no leading zeros. The model refuses every other string with `socket.error`. The C library also accepts shorter forms, hexadecimal fields, leading-zero octal fields ("010.0.0.1" is 8.0.0.1) and a quad followed by whitespace and any text ("1.2.3.4 x" is 1.2.3.4). For those strings the model raises where the program stores an address. A string with an embedded NUL makes Python 2's `socket.inet_aton` raise TypeError, where the model raises `socket.error`.
- The host is fixed as LP64 and little-endian. Other widths and byte orders are out of scope.
- Strings are sequences of characters. Byte values above 255, Unicode conversion by `b()`/`u()` and the DisplayString ASCII restriction are not modelled.
- VarTypes.FixedVar.constructor: takes an integer initial value only. The conversion of non-numeric initial values by `b()`, and the error ctypes raises for them, are not modelled.
- VarTypes.StringVar.constructor: takes a string initial value only. `create_string_buffer` with a numeric initial value is not modelled.
- VarTypes.StringVar.Create: takes a string initial value only, like the constructor it wraps. `OctetString(initval)` with a numeric initial value is not modelled.
- VarTypes.FixedVar.Update: takes an integer only. The TypeError that `val >> 32` or the ctypes assignment raises for a non-number is not modelled.
- VarTypes.FixedVar.Increment: takes an integer count only. The TypeError for a non-numeric count is not modelled.
- VarTypes.Counter64Var.constructor: takes an integer initial value only. The TypeError the `counter64` setter raises for a non-number is not modelled.
- VarTypes.Counter64Var.Update: takes an integer only. The TypeError that `val >> 64` raises for a non-number is not modelled.
- VarTypes.Counter64Var.Increment: takes an integer count only. The TypeError for a non-numeric count is not modelled.
- NetSnmpApi.Counter64.SetValue: `/` is Python 2's floor division. Under Python 3 it would be true division, and that is not modelled.
- The modelled code keeps no state about the connection to the master agent, so the model has none either.

## Findings

| source | as written | input that shows it | evidently intended | confidence | as-written member | corrected member |
|---|---|---|---|---|---|---|
| netsnmpagent.py:132-133 | the error for an unreadable MIB file applies `.format(mib)` to the literal "failed!" alone, because the method call binds tighter than `+`, so the message keeps the placeholder | MIBFiles = ["TEST-MIB.txt"] with `read_mib` returning 0 raises "netsnmp_read_module({0}) failed!" | "netsnmp_read_module(TEST-MIB.txt) failed!" | high; not executed | Agent.ReadMibMessageAsWrittenLosesName | Agent.ReadMibMessage |

=== FILE: agent.dfy ===
/** The net-snmp agent object: configuration, the registry of SNMP
    variables (`_vars`) and the flag (`_may_addvars`) that closes
    registration once the agent is started. Every call into net-snmp is
    represented by the result it hands back, given as a parameter, and
    registration reports the native calls it makes. */
module Agent {
  import opened PyRuntime
  import opened CTypes

  /** include/net-snmp/types.h */
  const MAX_OID_LEN: nat := 128

  /** include/net-snmp/agent/agent_handler.h */
  const HANDLER_CAN_GETANDGETNEXT: bv8 := 0x01
  const HANDLER_CAN_SET: bv8 := 0x02
  const HANDLER_CAN_RONLY: bv8 := HANDLER_CAN_GETANDGETNEXT
  const HANDLER_CAN_RWRITE: bv8 := HANDLER_CAN_GETANDGETNEXT | HANDLER_CAN_SET

  /** include/net-snmp/library/asn1.h and snmp_impl.h; the application
      types are ASN_APPLICATION (0x40) or-ed with 0 to 3. */
  const ASN_INTEGER: int := 0x02
  const ASN_OCTET_STR: int := 0x04
  const ASN_IPADDRESS: int := 0x40
  const ASN_COUNTER: int := 0x41
  const ASN_UNSIGNED: int := 0x42
  const ASN_TIMETICKS: int := 0x43

  /** include/net-snmp/agent/watcher.h */
  const WATCHER_FIXED_SIZE: int := 0x01
  const WATCHER_SIZE_STRLEN: int := 0x08

  /** Maximum string size supported by the wrapper. */
  const MAX_STRING_SIZE: nat := 1024

  const ADD_AFTER_START: string := "Attempt to add variable after agent has been started!"
  const REGISTER_FAILED: string := "Error registering SNMP variable!"

  // ---------------------------------------------------------------------
  // Variable types and their properties

  /** A call of one of the registering methods: the type it is named after
      and its `writable` argument (Counter32 has none), which defaults to
      true when the caller leaves it out. */
  datatype VarDecl =
    | Integer32(writable: bool := true)
    | Unsigned32(writable: bool := true)
    | Counter32
    | TimeTicks(writable: bool := true)
    | IPAddress(writable: bool := true)
    | OctetString(writable: bool := true)
    | DisplayString(writable: bool := true)

  /** The registering method's name, which the generated class takes. */
  function TypeName(d: VarDecl): string {
    match d
    case Integer32(_) => "Integer32"
    case Unsigned32(_) => "Unsigned32"
    case Counter32 => "Counter32"
    case TimeTicks(_) => "TimeTicks"
    case IPAddress(_) => "IPAddress"
    case OctetString(_) => "OctetString"
    case DisplayString(_) => "DisplayString"
  }

  /** The ctypes constructor a type's properties name. */
  datatype CtypeCtor = Scalar(ctype: CType) | StringBuffer

  datatype InitVal = IntInit(i: int) | StrInit(s: string)

  /** The dictionary a property function returns; `max_size` is present
      for the string types only. */
  datatype Props = Props(
    asntype: int,
    ctype: CtypeCtor,
    flags: int,
    maxSize: Option<nat>,
    initval: InitVal,
    writable: bool)

  /** Properties the registration code relies on: fixed-size flags go
      with a scalar ctype and an integer initval, anything else with a
      string buffer, a `max_size` and a string initval that fits it. */
  predicate WellFormed(p: Props) {
    if p.flags == WATCHER_FIXED_SIZE then p.ctype.Scalar? && p.initval.IntInit?
    else p.ctype.StringBuffer? && p.maxSize.Some? && p.initval.StrInit? && |p.initval.s| <= p.maxSize.value
  }

  /** The property functions `Integer32` ... `DisplayString`. */
  function Properties(d: VarDecl): (p: Props)
    ensures WellFormed(p)
    ensures p.writable <==> !d.Counter32? && d.writable
    ensures p.ctype.StringBuffer? <==> d.OctetString? || d.DisplayString?
    ensures p.ctype.StringBuffer? ==> p.flags == WATCHER_SIZE_STRLEN && p.maxSize == Some(MAX_STRING_SIZE) && p.initval == StrInit("")
    ensures p.ctype.Scalar? ==> p.flags == WATCHER_FIXED_SIZE && p.maxSize.None? && p.initval == IntInit(0)
    ensures d.IPAddress? <==> p.ctype == Scalar(CUInt)
  {
    match d
    case Integer32(w) => Props(ASN_INTEGER, Scalar(CLong), WATCHER_FIXED_SIZE, None, IntInit(0), w)
    case Unsigned32(w) => Props(ASN_UNSIGNED, Scalar(CULong), WATCHER_FIXED_SIZE, None, IntInit(0), w)
    case Counter32 => Props(ASN_COUNTER, Scalar(CULong), WATCHER_FIXED_SIZE, None, IntInit(0), false)
    case TimeTicks(w) => Props(ASN_TIMETICKS, Scalar(CULong), WATCHER_FIXED_SIZE, None, IntInit(0), w)
    case IPAddress(w) => Props(ASN_IPADDRESS, Scalar(CUInt), WATCHER_FIXED_SIZE, None, IntInit(0), w)
    case OctetString(w) =>
      Props(ASN_OCTET_STR, StringBuffer, WATCHER_SIZE_STRLEN, Some(MAX_STRING_SIZE), StrInit(""), w)
    case DisplayString(w) =>
      Props(ASN_OCTET_STR, StringBuffer, WATCHER_SIZE_STRLEN, Some(MAX_STRING_SIZE), StrInit(""), w)
  }

  /** The handler modes: SNMP SET is allowed exactly for writable types. */
  function HandlerModes(p: Props): (m: bv8)
    ensures m & HANDLER_CAN_GETANDGETNEXT != 0
    ensures (m & HANDLER_CAN_SET != 0) <==> p.writable
  {
    if p.writable then HANDLER_CAN_RWRITE else HANDLER_CAN_RONLY
  }

  /** The arguments of `netsnmp_create_watcher_info6` apart from the data
      argument. */
  datatype WatcherArgs = WatcherArgs(dataSize: nat, asnType: int, flags: int, maxSize: nat)

  function WatcherFor(p: Props): WatcherArgs
    requires WellFormed(p)
  {
    if p.flags == WATCHER_FIXED_SIZE then
      var size := SizeOf(p.ctype.ctype);
      WatcherArgs(size, p.asntype, p.flags, size)
    else
      WatcherArgs(0, p.asntype, p.flags, p.maxSize.value)
  }

  /** The ctypes cell a registration creates. */
  datatype CCell = IntCell(ctype: CType, i: int) | BufCell(buf: seq<char>)

  /** `props["ctype"](*ctype_args)`: the initval, and for a type that is
      not fixed-size the maximum size as second argument. */
  function InitialCell(p: Props): CCell
    requires WellFormed(p)
  {
    if p.flags == WATCHER_FIXED_SIZE then IntCell(p.ctype.ctype, Store(p.ctype.ctype, p.initval.i))
    else BufCell(Written(Zeroed(p.maxSize.value), p.initval.s))
  }

  /** Read-write for every writable declaration, read-only otherwise and
      always for Counter32: 0x03 and 0x01. A declaration that leaves
      `writable` out is read-write. */
  lemma HandlerModesOf(d: VarDecl)
    ensures HandlerModes(Properties(d)) == if !d.Counter32? && d.writable then 0x03 else 0x01
    ensures d.Counter32? ==> HandlerModes(Properties(d)) == HANDLER_CAN_RONLY
    ensures HandlerModes(Properties(Integer32())) == HANDLER_CAN_RWRITE
    ensures HandlerModes(Properties(Unsigned32())) == HANDLER_CAN_RWRITE
    ensures HandlerModes(Properties(TimeTicks())) == HANDLER_CAN_RWRITE
    ensures HandlerModes(Properties(IPAddress())) == HANDLER_CAN_RWRITE
    ensures HandlerModes(Properties(OctetString())) == HANDLER_CAN_RWRITE
    ensures HandlerModes(Properties(DisplayString())) == HANDLER_CAN_RWRITE
  {
  }

  /** Watcher sizes: a fixed-size type is watched at exactly the size of
      its C type (4 bytes for IPAddress, 8 for the `long` types); a string
      type starts at size 0 with room for MAX_STRING_SIZE, and its buffer
      is created with that many characters, all NUL. */
  lemma WatcherSizesOf(d: VarDecl)
    ensures var p := Properties(d); var w := WatcherFor(p);
      w.asnType == p.asntype && w.flags == p.flags &&
      if d.OctetString? || d.DisplayString? then
        w.dataSize == 0 && w.maxSize == MAX_STRING_SIZE &&
        InitialCell(p) == BufCell(Zeroed(MAX_STRING_SIZE))
      else
        w.dataSize == w.maxSize == (if d.IPAddress? then 4 else 8) &&
        InitialCell(p) == IntCell(p.ctype.ctype, 0)
  {
  }

  // ---------------------------------------------------------------------
  // OIDs

  /** What `read_objid` hands back: its status, the working buffer it
      filled and the length it wrote to `workoid_len`. */
  datatype ObjidReply = ObjidReply(status: int, workoid: seq<nat>, workoidLen: nat)

  /** net-snmp's side of the call: it fills the MAX_OID_LEN buffer the
      wrapper passes and, on success, reports a length that fits it. */
  predicate LibraryContract(reply: ObjidReply) {
    |reply.workoid| == MAX_OID_LEN && (reply.status != 0 ==> reply.workoidLen <= MAX_OID_LEN)
  }

  datatype Oid = Oid(ids: seq<nat>, len: nat)

  /** `oidstr2oid`: fails when `read_objid` returns 0, otherwise copies
      just the reported number of sub-identifiers. */
  function Oidstr2Oid(oidstr: string, reply: ObjidReply): (r: Result<Oid>)
    requires LibraryContract(reply)
    ensures r.Err? <==> reply.status == 0
    ensures r.Err? ==> r.error == NetSnmpAgentException("read_objid(" + oidstr + ") failed!")
    ensures r.Ok? ==> r.value.len == |r.value.ids| == reply.workoidLen <= MAX_OID_LEN
    ensures r.Ok? ==> r.value.ids <= reply.workoid
  {
    if reply.status == 0 then
      var prefix, suffix := "read_objid(", ") failed!";
      FormatOne(prefix, suffix, oidstr);
      Err(NetSnmpAgentException(Format(prefix + "{0}" + suffix, oidstr)))
    else
      Ok(Oid(reply.workoid[0..reply.workoidLen], reply.workoidLen))
  }

  // ---------------------------------------------------------------------
  // Configuration

  /** A `MIBFiles` argument: one file name, or a list or tuple of them. */
  datatype MibFiles = Single(file: string) | List(files: seq<string>) | Tuple(files: seq<string>)

  /** A single value that is neither list nor tuple becomes a one-element
      tuple; None and sequences are kept. */
  function NormaliseMibFiles(m: Option<MibFiles>): (r: Option<MibFiles>)
    ensures r.None? <==> m.None?
    ensures r.Some? ==> !r.value.Single?
    ensures m.Some? && m.value.Single? ==> r == Some(Tuple([m.value.file]))
    ensures m.Some? && !m.value.Single? ==> r == m
  {
    if m.Some? && m.value.Single? then Some(Tuple([m.value.file])) else m
  }

  /** The keyword arguments the constructor looks at; None means the key
      was not given (a given value may itself be None). */
  datatype AgentArgs = AgentArgs(
    agentName: Option<string>,
    masterSocket: Option<Option<string>>,
    mibFiles: Option<Option<MibFiles>>)

  /** `args.get(key, default)`. */
  function Get<T>(given: Option<T>, default: T): T {
    if given.Some? then given.value else default
  }

  /** The files the constructor reads, in order: none when `MIBFiles` is
      None or empty. */
  function MibsToRead(m: Option<MibFiles>): seq<string>
    requires m.None? || !m.value.Single?
  {
    if m.None? then [] else m.value.files
  }

  /** The error message for a MIB file net-snmp could not read, with the
      file named as the format string intends. */
  function ReadMibMessage(mib: string): (msg: string)
    ensures msg == "netsnmp_read_module(" + mib + ") failed!"
  {
    var prefix, suffix := "netsnmp_read_module(", ") failed!";
    FormatOne(prefix, suffix, mib);
    Format(prefix + "{0}" + suffix, mib)
  }

  /** The same message as the source builds it: `.format` applies to the
      literal "failed!" only, and the text before it keeps its "{0}". */
  function ReadMibMessageAsWritten(mib: string): string {
    var head, tail := "netsnmp_read_module(" + "{0}" + ") ", "failed!";
    head + Format(tail, mib)
  }

  /** As written, the message is one constant, placeholder included,
      whatever the file is called. */
  lemma ReadMibMessageAsWrittenIsConstant(mib: string)
    ensures ReadMibMessageAsWritten(mib) == "netsnmp_read_module(" + "{0}" + ") " + "failed!"
  {
    FormatPlain("failed!", mib);
  }

  /** So it never names the file: it differs from the intended message
      for every name but "{0}" itself. */
  lemma ReadMibMessageAsWrittenLosesName(mib: string)
    ensures mib != "{0}" ==> ReadMibMessageAsWritten(mib) != ReadMibMessage(mib)
  {
    var prefix, suffix := "netsnmp_read_module(", ") failed!";
    ReadMibMessageAsWrittenIsConstant(mib);
    assert ") " + "failed!" == suffix;
    assert ReadMibMessageAsWritten(mib) == prefix + "{0}" + suffix;
    if mib != "{0}" {
      MiddleDiffers(prefix, suffix, mib, "{0}");
    }
  }

  /** Different middles make different strings between the same ends. */
  lemma MiddleDiffers(p: string, s: string, x: string, y: string)
    requires x != y
    ensures p + x + s != p + y + s
  {
    if |x| == |y| {
      var i :| 0 <= i < |x| && x[i] != y[i];
      assert (p + x + s)[|p| + i] == x[i];
      assert (p + y + s)[|p| + i] == y[i];
    }
  }

  /** The first file in `mibs` that `readMib` rejects with 0. */
  function FirstUnreadable(mibs: seq<string>, readMib: string -> int): (r: Option<nat>)
    ensures r.None? <==> forall i :: 0 <= i < |mibs| ==> readMib(mibs[i]) != 0
    ensures r.Some? ==> r.value < |mibs| && readMib(mibs[r.value]) == 0
    ensures r.Some? ==> forall i :: 0 <= i < r.value ==> readMib(mibs[i]) != 0
  {
    if mibs == [] then None
    else if readMib(mibs[0]) == 0 then Some(0)
    else
      var rest := FirstUnreadable(mibs[1..], readMib);
      if rest.None? then None else Some(rest.value + 1)
  }

  /** The file found is the one the reading loop stops at. */
  lemma {:induction false} FirstUnreadableAt(mibs: seq<string>, readMib: string -> int, i: nat)
    requires i < |mibs| && readMib(mibs[i]) == 0
    requires forall j :: 0 <= j < i ==> readMib(mibs[j]) != 0
    ensures FirstUnreadable(mibs, readMib) == Some(i)
  {
    if i > 0 {
      assert readMib(mibs[0]) != 0;
      assert forall j :: 0 <= j < i - 1 ==> mibs[1..][j] == mibs[j + 1];
      FirstUnreadableAt(mibs[1..], readMib, i - 1);
    }
  }

  /** The results of the native calls the constructor makes. */
  datatype InitLib = InitLib(loads: bool, initAgent: string -> int, readMib: string -> int)

  /** The exception the constructor raises, if any; an unreadable MIB file
      raises the message as the code builds it. */
  function InitError(agentName: string, mibs: seq<string>, lib: InitLib): Option<Exception> {
    if !lib.loads then Some(NetSnmpAgentException("Could not load libnetsnmpagent!"))
    else if lib.initAgent(agentName) != 0 then Some(NetSnmpAgentException("init_agent() failed!"))
    else
      var bad := FirstUnreadable(mibs, lib.readMib);
      if bad.Some? then Some(NetSnmpAgentException(ReadMibMessageAsWritten(mibs[bad.value]))) else None
  }

  /** Once the library is up, the constructor fails exactly when some MIB
      file is unreadable, and then always with the same message, which
      names no file. */
  lemma InitErrorForMibs(agentName: string, mibs: seq<string>, lib: InitLib)
    requires lib.loads && lib.initAgent(agentName) == 0
    ensures InitError(agentName, mibs, lib).Some? <==> exists i :: 0 <= i < |mibs| && lib.readMib(mibs[i]) == 0
    ensures InitError(agentName, mibs, lib).Some? ==>
      InitError(agentName, mibs, lib) == Some(NetSnmpAgentException("netsnmp_read_module(" + "{0}" + ") " + "failed!"))
  {
    var bad := FirstUnreadable(mibs, lib.readMib);
    if bad.Some? {
      ReadMibMessageAsWrittenIsConstant(mibs[bad.value]);
    }
  }

  // ---------------------------------------------------------------------
  // The registered variable objects

  /** The class generated for a registered variable: it wraps the ctypes
      cell net-snmp watches. */
  class SnmpVar {
    const typeName: string
    var cvar: CCell

    constructor (typeName: string, cvar: CCell)
      ensures this.typeName == typeName && this.cvar == cvar
    {
      this.typeName := typeName;
      this.cvar := cvar;
    }

    /** `self._cvar.value`: the integer, or the buffer's C string. */
    function Value(): (v: PyValue)
      reads this
      ensures cvar.IntCell? ==> v == PyInt(cvar.i)
      ensures cvar.BufCell? ==> v.PyStr? && v.s <= cvar.buf && NUL !in v.s
      ensures cvar.BufCell? && |v.s| < |cvar.buf| ==> cvar.buf[|v.s|] == NUL
    {
      match cvar
      case IntCell(_, i) => PyInt(i)
      case BufCell(buf) => PyStr(UntilNul(buf))
    }

    /** `self._cvar.value = val`, as ctypes carries it out. */
    method Update(val: PyValue) returns (r: Outcome)
      modifies this
      ensures cvar.IntCell? == old(cvar).IntCell?
      ensures old(cvar).IntCell? ==> cvar.ctype == old(cvar).ctype
      ensures old(cvar).BufCell? ==> |cvar.buf| == |old(cvar).buf|
      ensures old(cvar).IntCell? ==> (r.Pass? <==> IsNum(val))
      ensures old(cvar).IntCell? && IsNum(val) ==> cvar.i == Store(cvar.ctype, IntOf(val))
      ensures old(cvar).BufCell? ==> (r.Pass? <==> val.PyStr? && |val.s| <= |old(cvar).buf|)
      ensures old(cvar).BufCell? && r.Pass? ==> cvar == BufCell(Written(old(cvar).buf, val.s))
      ensures old(cvar).BufCell? && r.Pass? && NUL !in val.s ==> Value() == val
      ensures old(cvar).IntCell? && !IsNum(val) ==> r == Fail(TypeError)
      ensures old(cvar).BufCell? && !val.PyStr? ==> r == Fail(TypeError)
      ensures old(cvar).BufCell? && val.PyStr? && |val.s| > |old(cvar).buf| ==> r == Fail(ValueError)
      ensures r.Fail? ==> cvar == old(cvar)
    {
      match cvar
      case IntCell(t, _) =>
        if IsNum(val) {
          cvar := IntCell(t, Store(t, IntOf(val)));
          r := Pass;
        } else {
          r := Fail(TypeError);
        }
      case BufCell(buf) =>
        if !val.PyStr? {
          r := Fail(TypeError);
        } else if |val.s| > |buf| {
          r := Fail(ValueError);
        } else {
          cvar := BufCell(Written(buf, val.s));
          r := Pass;
          if NUL !in val.s {
            UntilNulOfWritten(buf, val.s);
            UntilNulOfNulFree(val.s);
          }
        }
    }
  }

  /** One call into net-snmp made while registering a variable. */
  datatype NativeCall =
    | ReadObjid(oidstr: string)
    | CreateHandlerRegistration(name: string, oid: seq<nat>, oidLen: nat, handlerModes: bv8)
    | CreateWatcherInfo(watcher: WatcherArgs)
    | RegisterWatchedInstance

  /** The calls of a registration whose OID was resolved to `oid`. */
  function RegistrationCalls(oidstr: string, d: VarDecl, oid: Oid): seq<NativeCall> {
    var p := Properties(d);
    [ ReadObjid(oidstr),
      CreateHandlerRegistration(oidstr, oid.ids, oid.len, HandlerModes(p)),
      CreateWatcherInfo(WatcherFor(p)),
      RegisterWatchedInstance ]
  }

  /** What `getVars()` reports for one variable. */
  datatype VarInfo = VarInfo(typeName: string, value: PyValue)

  // ---------------------------------------------------------------------
  // The agent

  class NetSnmpAgent {
    var agentName: string
    var masterSocket: Option<string>
    var mibFiles: Option<MibFiles>
    var vars: map<string, SnmpVar>
    var mayAddVars: bool

    /** The defaults and the normalisation of MIBFiles, and an empty,
        open registry. `scriptName` stands for the base name of the
        running script without its extension. */
    constructor Configure(args: AgentArgs, scriptName: string)
      ensures agentName == Get(args.agentName, scriptName)
      ensures masterSocket == Get(args.masterSocket, None)
      ensures mibFiles == NormaliseMibFiles(Get(args.mibFiles, None))
      ensures vars == map[] && mayAddVars
    {
      agentName := Get(args.agentName, scriptName);
      masterSocket := Get(args.masterSocket, None);
      mibFiles := NormaliseMibFiles(Get(args.mibFiles, None));
      vars := map[];
      mayAddVars := true;
    }

    /** `netsnmpAgent(**args)`: configure, then initialise net-snmp and read
        every MIB file in turn; the first failure raises. */
    static method Create(args: AgentArgs, scriptName: string, lib: InitLib) returns (r: Result<NetSnmpAgent>)
      ensures var name := Get(args.agentName, scriptName);
              var mibs := MibsToRead(NormaliseMibFiles(Get(args.mibFiles, None)));
              && (r.Err? <==> InitError(name, mibs, lib).Some?)
              && (r.Err? ==> r.error == InitError(name, mibs, lib).value)
      ensures r.Ok? ==> fresh(r.value) && r.value.vars == map[] && r.value.mayAddVars
      ensures r.Ok? ==> r.value.agentName == Get(args.agentName, scriptName)
      ensures r.Ok? ==> r.value.masterSocket == Get(args.masterSocket, None)
      ensures r.Ok? ==> r.value.mibFiles == NormaliseMibFiles(Get(args.mibFiles, None))
    {
      if !lib.loads {
        return Err(NetSnmpAgentException("Could not load libnetsnmpagent!"));
      }
      var agent := new NetSnmpAgent.Configure(args, scriptName);
      if lib.initAgent(agent.agentName) != 0 {
        return Err(NetSnmpAgentException("init_agent() failed!"));
      }
      var mibs := MibsToRead(agent.mibFiles);
      var i := 0;
      while i < |mibs|
        invariant 0 <= i <= |mibs|
        invariant forall j :: 0 <= j < i ==> lib.readMib(mibs[j]) != 0
      {
        if lib.readMib(mibs[i]) == 0 {
          FirstUnreadableAt(mibs, lib.readMib, i);
          return Err(NetSnmpAgentException(ReadMibMessageAsWritten(mibs[i])));
        }
        i := i + 1;
      }
      return Ok(agent);
    }

    /** `register_and_define_class`: refused once started; otherwise the
        OID is resolved, a handler registration and a watcher are created,
        and only when net-snmp accepts the watched instance is the new
        object recorded under `oidstr`. */
    method Register(oidstr: string, decl: VarDecl, objid: ObjidReply, watchedStatus: int)
      returns (r: Result<SnmpVar>, calls: seq<NativeCall>)
      requires LibraryContract(objid)
      modifies this
      ensures mayAddVars == old(mayAddVars)
      ensures agentName == old(agentName) && masterSocket == old(masterSocket) && mibFiles == old(mibFiles)
      ensures !old(mayAddVars) ==> r == Err(NetSnmpAgentException(ADD_AFTER_START)) && calls == []
      ensures old(mayAddVars) && objid.status == 0 ==> r == Err(Oidstr2Oid(oidstr, objid).error) && calls == [ReadObjid(oidstr)]
      ensures old(mayAddVars) && objid.status != 0 ==> calls == RegistrationCalls(oidstr, decl, Oidstr2Oid(oidstr, objid).value)
      ensures old(mayAddVars) && objid.status != 0 && watchedStatus != 0 ==> r == Err(NetSnmpAgentException(REGISTER_FAILED))
      ensures r.Ok? <==> old(mayAddVars) && objid.status != 0 && watchedStatus == 0
      ensures r.Err? ==> vars == old(vars)
      ensures r.Ok? ==> fresh(r.value) && vars == old(vars)[oidstr := r.value]
      ensures r.Ok? ==> r.value.typeName == TypeName(decl) && r.value.cvar == InitialCell(Properties(decl))
    {
      calls := [];
      if !mayAddVars {
        return Err(NetSnmpAgentException(ADD_AFTER_START)), calls;
      }
      var props := Properties(decl);
      calls := calls + [ReadObjid(oidstr)];
      var oid := Oidstr2Oid(oidstr, objid);
      if oid.Err? {
        return Err(oid.error), calls;
      }
      var handlerModes := HandlerModes(props);
      calls := calls + [CreateHandlerRegistration(oidstr, oid.value.ids, oid.value.len, handlerModes)];
      var cvar := InitialCell(props);
      calls := calls + [CreateWatcherInfo(WatcherFor(props))];
      calls := calls + [RegisterWatchedInstance];
      if watchedStatus != 0 {
        return Err(NetSnmpAgentException(REGISTER_FAILED)), calls;
      }
      var v := new SnmpVar(TypeName(decl), cvar);
      vars := vars[oidstr := v];
      r := Ok(v);
    }

    /** `getVars()`: every registered OID string with its type name and
        current value. */
    method GetVars() returns (result: map<string, VarInfo>)
      ensures result.Keys == vars.Keys
      ensures forall k :: k in result ==> result[k] == VarInfo(vars[k].typeName, vars[k].Value())
    {
      result := map[];
      var todo := vars.Keys;
      while todo != {}
        invariant todo <= vars.Keys
        invariant result.Keys == vars.Keys - todo
        invariant forall k :: k in result ==> result[k] == VarInfo(vars[k].typeName, vars[k].Value())
        decreases todo
      {
        var k :| k in todo;
        result := result[k := VarInfo(vars[k].typeName, vars[k].Value())];
        todo := todo - {k};
      }
    }

    /** `start()`: registration closes for good; the connection itself is
        made by net-snmp. */
    method Start()
      modifies this
      ensures !mayAddVars
      ensures vars == old(vars)
      ensures agentName == old(agentName) && masterSocket == old(masterSocket) && mibFiles == old(mibFiles)
    {
      mayAddVars := false;
    }
  }
}

=== FILE: ctypes_model.dfy ===
/** What ctypes does when the wrapper stores into a C integer or a C char
    buffer. The host is fixed as LP64: `c_int`/`c_uint` are 32 bits wide,
    `c_long`/`c_ulong` 64 bits. */
module CTypes {

  const TWO_32: int := 0x1_0000_0000
  const TWO_64: int := 0x1_0000_0000_0000_0000

  /** The C integer types the wrapper uses for scalar cells. */
  datatype CType = CInt | CUInt | CLong | CULong

  /** `ctypes.sizeof` on an LP64 host. */
  function SizeOf(t: CType): nat {
    match t
    case CInt => 4
    case CUInt => 4
    case CLong => 8
    case CULong => 8
  }

  /** Two to the number of bits of `t`. */
  function Modulus(t: CType): int {
    if SizeOf(t) == 4 then TWO_32 else TWO_64
  }

  predicate Signed(t: CType) {
    t == CInt || t == CLong
  }

  /** The values a cell of type `t` can hold. */
  predicate InRange(t: CType, v: int) {
    if Signed(t) then -Modulus(t) / 2 <= v < Modulus(t) / 2
    else 0 <= v < Modulus(t)
  }

  /** What `.value` reads back after `.value = v`: ctypes keeps the low
      bits of `v` without complaint, and a signed type reads them as two's
      complement. */
  function Store(t: CType, v: int): (r: int)
    ensures InRange(t, r)
    ensures (r - v) % Modulus(t) == 0
    ensures InRange(t, v) ==> r == v
  {
    var m := Modulus(t);
    var low := v % m;
    Wrap(v, m);
    if Signed(t) && low >= m / 2 then low - m else low
  }

  /** Both candidate results differ from `v` by a multiple of `m`, and
      the remainder of a number in [-m/2, m) is the number, or the number
      plus `m` when it is negative. */
  lemma Wrap(v: int, m: int)
    requires m > 0
    ensures (v % m - v) % m == 0 && (v % m - m - v) % m == 0
    ensures 0 <= v < m ==> v % m == v
    ensures -m <= v < 0 ==> v % m == v + m
  {
    var k := v / m;
    assert v == k * m + v % m;
    MultipleMod(-k, m);
    MultipleMod(-k - 1, m);
    assert v % m - v == -k * m;
    assert v % m - m - v == (-k - 1) * m;
    if 0 <= v < m {
      assert k == 0;
    }
    if -m <= v < 0 {
      assert k == -1;
    }
  }

  /** A multiple of `m` leaves no remainder. */
  lemma MultipleMod(k: int, m: int)
    requires m > 0
    ensures (k * m) % m == 0
  {
    var q, r := (k * m) / m, (k * m) % m;
    var d := k - q;
    assert d * m == r by {
      assert k * m == q * m + r;
      assert d * m == k * m - q * m;
    }
    assert d == 0;
  }

  /** The NUL character that terminates a C string. */
  const NUL: char := '\0'

  /** `.value` of a `c_char` array: the characters before the first NUL. */
  function UntilNul(buf: seq<char>): (r: seq<char>)
    ensures r <= buf
    ensures NUL !in r
    ensures |r| < |buf| ==> buf[|r|] == NUL
  {
    if buf == [] || buf[0] == NUL then [] else [buf[0]] + UntilNul(buf[1..])
  }

  /** A `c_char` array after `.value = v`, when `v` fits: `v` is copied to
      the front, followed by a NUL if there is room for one; the rest of
      the buffer keeps its old contents. */
  function Written(buf: seq<char>, v: seq<char>): (r: seq<char>)
    requires |v| <= |buf|
    ensures |r| == |buf|
    ensures r[..|v|] == v
    ensures |v| < |buf| ==> r[|v|] == NUL && r[|v| + 1..] == buf[|v| + 1..]
  {
    if |v| < |buf| then v + [NUL] + buf[|v| + 1..] else v
  }

  /** Reading `.value` after writing `v` stops where `v` itself stops: at
      its first NUL, or at its end. */
  lemma {:induction false} UntilNulOfWritten(buf: seq<char>, v: seq<char>)
    requires |v| <= |buf|
    ensures UntilNul(Written(buf, v)) == UntilNul(v)
  {
    if v != [] && v[0] != NUL {
      var w := Written(buf, v);
      assert w[0] == v[0];
      assert w[1..] == Written(buf[1..], v[1..]);
      UntilNulOfWritten(buf[1..], v[1..]);
    }
  }

  /** A string without NUL reads back whole. */
  lemma UntilNulOfNulFree(v: seq<char>)
    requires NUL !in v
    ensures UntilNul(v) == v
  {
  }

  /** A fresh buffer of `n` NUL characters. */
  function Zeroed(n: nat): (r: seq<char>)
    ensures |r| == n && forall i :: 0 <= i < n ==> r[i] == NUL
  {
    seq(n, _ => NUL)
  }
}

=== FILE: dotted_quad.dfy ===
/** IPv4 addresses as the `IpAddress` scalar handles them: dotted-quad
    strings (`socket.inet_aton`/`inet_ntoa`), four octets in network
    order, and the 32-bit word `struct` packs them into on a
    little-endian host. */
module DottedQuad {
  import opened PyRuntime
  import opened CTypes

  type Octet = x: int | 0 <= x < 256

  /** `s.split(".")`: the fields between the dots. */
  function SplitDots(s: string): (r: seq<string>)
    ensures |r| >= 1
    ensures forall i :: 0 <= i < |r| ==> '.' !in r[i]
  {
    if s == [] then [[]]
    else
      var rest := SplitDots(s[1..]);
      if s[0] == '.' then [[]] + rest
      else [[s[0]] + rest[0]] + rest[1..]
  }

  /** `".".join(fs)`. */
  function JoinDots(fs: seq<string>): string
    requires |fs| >= 1
  {
    if |fs| == 1 then fs[0] else fs[0] + "." + JoinDots(fs[1..])
  }

  /** Joining the fields of a string gives the string back. */
  lemma {:induction false} JoinSplit(s: string)
    ensures JoinDots(SplitDots(s)) == s
  {
    if s != [] {
      var rest := SplitDots(s[1..]);
      JoinSplit(s[1..]);
      if s[0] != '.' {
        var r := SplitDots(s);
        assert r[1..] == rest[1..];
        if |rest| == 1 {
          assert JoinDots(r) == [s[0]] + rest[0];
        } else {
          assert JoinDots(rest) == rest[0] + "." + JoinDots(rest[1..]);
          assert JoinDots(r) == ([s[0]] + rest[0]) + "." + JoinDots(rest[1..]);
        }
      }
    }
  }

  /** Splitting `f + "." + t` for a dot-free `f` peels off `f`. */
  lemma {:induction false} SplitCons(f: string, t: string)
    requires '.' !in f
    ensures SplitDots(f + "." + t) == [f] + SplitDots(t)
  {
    if f != [] {
      assert (f + "." + t)[1..] == f[1..] + "." + t;
      SplitCons(f[1..], t);
      assert [f[0]] + f[1..] == f;
    }
  }

  /** Splitting the join of dot-free fields gives the fields back. */
  lemma {:induction false} SplitJoin(fs: seq<string>)
    requires |fs| >= 1
    requires forall i :: 0 <= i < |fs| ==> '.' !in fs[i]
    ensures SplitDots(JoinDots(fs)) == fs
  {
    if |fs| == 1 {
      SplitNoDot(fs[0]);
    } else {
      SplitJoin(fs[1..]);
      SplitCons(fs[0], JoinDots(fs[1..]));
      assert [fs[0]] + fs[1..] == fs;
    }
  }

  /** A dot-free string is a single field. */
  lemma {:induction false} SplitNoDot(f: string)
    requires '.' !in f
    ensures SplitDots(f) == [f]
  {
    if f != [] {
      SplitNoDot(f[1..]);
      assert [f[0]] + f[1..] == f;
    }
  }

  /** A field that denotes an octet in canonical decimal form. */
  predicate OctetField(f: string) {
    Canonical(f) && DecValue(f) < 256
  }

  /** `socket.inet_aton` restricted to canonical dotted quads: the four
      octets in network order, or None where the call raises. */
  function InetAton(s: string): (r: Option<seq<Octet>>)
    ensures r.Some? ==> |r.value| == 4
  {
    var fs := SplitDots(s);
    if |fs| == 4 && OctetField(fs[0]) && OctetField(fs[1]) && OctetField(fs[2]) && OctetField(fs[3])
    then Some([DecValue(fs[0]), DecValue(fs[1]), DecValue(fs[2]), DecValue(fs[3])])
    else None
  }

  /** `socket.inet_ntoa`: four octets written in dotted-decimal form. */
  function InetNtoa(q: seq<Octet>): string
    requires |q| == 4
  {
    JoinDots([Str(q[0]), Str(q[1]), Str(q[2]), Str(q[3])])
  }

  lemma OctetFieldOfStr(n: Octet)
    ensures OctetField(Str(n)) && DecValue(Str(n)) == n
  {
    DecValueOfStr(n);
  }

  /** Every four octets survive `inet_ntoa` followed by `inet_aton`. */
  lemma NtoaThenAton(q: seq<Octet>)
    requires |q| == 4
    ensures InetAton(InetNtoa(q)) == Some(q)
  {
    var fs := [Str(q[0]), Str(q[1]), Str(q[2]), Str(q[3])];
    OctetFieldOfStr(q[0]);
    OctetFieldOfStr(q[1]);
    OctetFieldOfStr(q[2]);
    OctetFieldOfStr(q[3]);
    assert forall i :: 0 <= i < 4 ==> '.' !in fs[i];
    SplitJoin(fs);
    assert SplitDots(InetNtoa(q)) == fs;
    assert InetAton(InetNtoa(q)) == Some([DecValue(fs[0]), DecValue(fs[1]), DecValue(fs[2]), DecValue(fs[3])]);
    assert [q[0], q[1], q[2], q[3]] == q;
  }

  /** Every string `inet_aton` accepts is given back by `inet_ntoa`. */
  lemma AtonThenNtoa(s: string)
    requires InetAton(s).Some?
    ensures InetNtoa(InetAton(s).value) == s
  {
    var fs := SplitDots(s);
    StrOfDecValue(fs[0]);
    StrOfDecValue(fs[1]);
    StrOfDecValue(fs[2]);
    StrOfDecValue(fs[3]);
    assert [Str(DecValue(fs[0])), Str(DecValue(fs[1])), Str(DecValue(fs[2])), Str(DecValue(fs[3]))] == fs;
    JoinSplit(s);
  }

  function Pow256(n: nat): (p: nat)
    ensures p >= 1
  {
    if n == 0 then 1 else 256 * Pow256(n - 1)
  }

  /** `struct.pack` of an `n`-byte unsigned integer on a little-endian
      host: least significant octet first. */
  function PackLE(w: nat, n: nat): (r: seq<Octet>)
    ensures |r| == n
  {
    if n == 0 then [] else [w % 256] + PackLE(w / 256, n - 1)
  }

  /** `struct.unpack` of little-endian octets. */
  function UnpackLE(q: seq<Octet>): nat {
    if q == [] then 0 else q[0] + 256 * UnpackLE(q[1..])
  }

  /** Unpacking what was packed gives the number back when it fits. */
  lemma {:induction false} UnpackPack(w: nat, n: nat)
    requires w < Pow256(n)
    ensures UnpackLE(PackLE(w, n)) == w
  {
    if n > 0 {
      assert w / 256 < Pow256(n - 1);
      UnpackPack(w / 256, n - 1);
      assert PackLE(w, n)[1..] == PackLE(w / 256, n - 1);
    }
  }

  /** Packing what was unpacked gives the octets back, and the number fits. */
  lemma {:induction false} PackUnpack(q: seq<Octet>)
    ensures UnpackLE(q) < Pow256(|q|)
    ensures PackLE(UnpackLE(q), |q|) == q
  {
    if q != [] {
      PackUnpack(q[1..]);
      var v := UnpackLE(q);
      assert v % 256 == q[0] && v / 256 == UnpackLE(q[1..]);
      assert [q[0]] + q[1..] == q;
    }
  }

  lemma Pow256Four()
    ensures Pow256(4) == TWO_32
  {
    assert Pow256(2) == 65536;
  }

  /** The stored word for a string: `struct.unpack("I", inet_aton(s))`. */
  function WordOf(s: string): (r: Option<int>)
    ensures r.Some? ==> 0 <= r.value < TWO_32
  {
    match InetAton(s)
    case None => None
    case Some(q) => PackUnpack(q); Pow256Four(); Some(UnpackLE(q))
  }

  /** The string for a stored word: `inet_ntoa(struct.pack("I", w))`. */
  function ShowWord(w: int): string
    requires 0 <= w < TWO_32
  {
    InetNtoa(PackLE(w, 4))
  }

  /** A dotted quad stored as a word reads back as the same string. */
  lemma ShowWordOf(s: string)
    requires WordOf(s).Some?
    ensures ShowWord(WordOf(s).value) == s
  {
    var q := InetAton(s).value;
    PackUnpack(q);
    AtonThenNtoa(s);
  }

  /** Every word is the stored form of the string it reads back as. */
  lemma WordOfShow(w: int)
    requires 0 <= w < TWO_32
    ensures WordOf(ShowWord(w)) == Some(w)
  {
    Pow256Four();
    NtoaThenAton(PackLE(w, 4));
    UnpackPack(w, 4);
  }

  /** The default address is the zero word. */
  lemma ZeroAddress()
    ensures WordOf("0.0.0.0") == Some(0) && ShowWord(0) == "0.0.0.0"
  {
    assert PackLE(0, 4) == [0, 0, 0, 0];
    assert Str(0) == "0";
    assert ShowWord(0) == JoinDots(["0", "0", "0", "0"]);
    WordOfShow(0);
  }

  function Reverse4(q: seq<Octet>): (r: seq<Octet>)
    requires |q| == 4
    ensures |r| == 4
  {
    [q[3], q[2], q[1], q[0]]
  }

  /** `struct.unpack("I", struct.pack("!I", w))`: the word with its octets
      in the opposite order. */
  function Swap(w: int): (r: int)
    requires 0 <= w < TWO_32
    ensures 0 <= r < TWO_32
  {
    var q := Reverse4(PackLE(w, 4));
    PackUnpack(q);
    Pow256Four();
    UnpackLE(q)
  }

  /** Swapping twice gives the word back. */
  lemma SwapSwap(w: int)
    requires 0 <= w < TWO_32
    ensures Swap(Swap(w)) == w
  {
    Pow256Four();
    var q := Reverse4(PackLE(w, 4));
    PackUnpack(q);
    assert Reverse4(PackLE(Swap(w), 4)) == PackLE(w, 4);
    UnpackPack(w, 4);
  }

  /** The swap turns the octets around: the first octet of the address
      becomes the most significant byte of the word. */
  lemma SwapOctets(w: int)
    requires 0 <= w < TWO_32
    ensures PackLE(Swap(w), 4) == Reverse4(PackLE(w, 4))
  {
    PackUnpack(Reverse4(PackLE(w, 4)));
  }
}

=== FILE: netsnmpapi.dfy ===
/** The `counter64` structure of the net-snmp C API abstraction: a 64-bit
    counter held as two `c_ulong` words, `high` and `low`. */
module NetSnmpApi {
  import opened CTypes

  /** `UINT_MAX` from <limits.h>; the structure's split divides by it. */
  const UINT_MAX: int := 4294967295

  /** What the `value` getter reports for a pair of words. */
  function Combine(high: int, low: int): int {
    high * UINT_MAX + low
  }

  /** The words the `value` setter leaves behind for `val`: `high` is the
      Python 2 floor quotient by UINT_MAX, `low` is computed from the
      `high` that was just stored; each assignment keeps the low 64 bits. */
  function SplitHigh(val: int): int {
    Store(CULong, val / UINT_MAX)
  }

  function SplitLow(val: int): int {
    Store(CULong, val - SplitHigh(val) * UINT_MAX)
  }

  /** For every value the words can represent, the setter splits it into a
      quotient and a remainder by UINT_MAX and the getter recombines them. */
  lemma SetThenGet(val: int)
    requires 0 <= val < TWO_64 * UINT_MAX
    ensures SplitHigh(val) == val / UINT_MAX
    ensures SplitLow(val) == val % UINT_MAX
    ensures 0 <= SplitLow(val) < UINT_MAX
    ensures Combine(SplitHigh(val), SplitLow(val)) == val
  {
  }

  /** The getter never reports a negative number, so a negative value
      assigned through the setter cannot be read back. */
  lemma GetterNonNegative(high: int, low: int)
    requires InRange(CULong, high) && InRange(CULong, low)
    ensures Combine(high, low) >= 0
  {
  }

  /** net-snmp reads the structure as `high * 2^32 + low`; with the split
      by UINT_MAX that reading exceeds the Python-side value by `high`. */
  lemma NetSnmpReading(val: int)
    requires 0 <= val < TWO_64 * UINT_MAX
    ensures SplitHigh(val) * TWO_32 + SplitLow(val) == val + val / UINT_MAX
  {
    SetThenGet(val);
  }

  class Counter64 {
    var high: int
    var low: int

    ghost predicate Valid()
      reads this
    {
      InRange(CULong, high) && InRange(CULong, low)
    }

    /** The `value` getter. */
    function Value(): int
      reads this
    {
      Combine(high, low)
    }

    /** The `value` setter. */
    method SetValue(val: int)
      modifies this
      ensures Valid()
      ensures high == SplitHigh(val) && low == SplitLow(val)
      ensures 0 <= val < TWO_64 * UINT_MAX ==> Value() == val && low < UINT_MAX
    {
      high := Store(CULong, val / UINT_MAX);
      low := Store(CULong, val - high * UINT_MAX);
      if 0 <= val < TWO_64 * UINT_MAX {
        SetThenGet(val);
      }
    }

    /** Both words start at zero, then `initval` goes through the setter. */
    constructor (initval: int := 0)
      ensures Valid()
      ensures high == SplitHigh(initval) && low == SplitLow(initval)
      ensures initval == 0 ==> high == 0 && low == 0
    {
      high, low := 0, 0;
      new;
      SetValue(initval);
    }
  }
}

=== FILE: py_runtime.dfy ===
/** The Python values, exceptions and conversions the wrapper relies on.
    The wrapper targets Python 2: `str` is a byte string, so a string and
    its `b()`/`u()` conversions are one and the same `PyStr`. */
module PyRuntime {

  datatype Option<+T> = None | Some(value: T)

  /** The exceptions the modelled code raises or lets escape. */
  datatype Exception =
    | NetSnmpAgentException(msg: string)
    | TypeError
    | ValueError      // ctypes refusing a byte string longer than its buffer
    | SocketError     // socket.error (an IOError in Python 2): inet_aton refusing a string
    | AttributeError  // an attribute that was never assigned

  datatype Result<+T> = Ok(value: T) | Err(error: Exception)

  /** Outcome of an operation that returns nothing but may raise. */
  datatype Outcome = Pass | Fail(error: Exception)

  /** The dynamically typed values that cross the wrapper's interface. */
  datatype PyValue =
    | PyNone
    | PyBool(b: bool)
    | PyInt(i: int)
    | PyStr(s: string)
    | PyList(items: seq<PyValue>)
    | PyTuple(items: seq<PyValue>)

  /** Python's `x + 1`: bool is a subclass of int and adds like 0 or 1;
      every other modelled type raises TypeError. */
  function AddOne(x: PyValue): Result<PyValue> {
    match x
    case PyBool(b) => Ok(PyInt((if b then 1 else 0) + 1))
    case PyInt(i) => Ok(PyInt(i + 1))
    case _ => Err(TypeError)
  }

  /** `isnum(x)`: whether `x + 1` goes through without a TypeError. */
  function IsNum(x: PyValue): (r: bool)
    ensures r <==> x.PyBool? || x.PyInt?
  {
    AddOne(x).Ok?
  }

  /** `int(x)` of a number. */
  function IntOf(x: PyValue): int
    requires IsNum(x)
  {
    if x.PyBool? then (if x.b then 1 else 0) else x.i
  }

  /** Python truth testing. */
  predicate Truthy(x: PyValue) {
    match x
    case PyNone => false
    case PyBool(b) => b
    case PyInt(i) => i != 0
    case PyStr(s) => s != []
    case PyList(items) => items != []
    case PyTuple(items) => items != []
  }

  /** `_VarType.value`: a number comes back as a plain int, anything else
      goes through `u()`, which leaves a Python 2 string as it is. */
  function ReadValue(raw: PyValue): (r: PyValue)
    ensures r.PyInt? <==> IsNum(raw)
    ensures IsNum(raw) ==> r.i == IntOf(raw)
    ensures !IsNum(raw) ==> r == raw
    ensures !r.PyBool?
  {
    if IsNum(raw) then PyInt(IntOf(raw)) else raw
  }

  /** Decimal digit character of `d`. */
  function Digit(d: int): char
    requires 0 <= d < 10
  {
    ['0', '1', '2', '3', '4', '5', '6', '7', '8', '9'][d]
  }

  predicate IsDigit(c: char) {
    '0' <= c <= '9'
  }

  /** `str(n)` for a non-negative integer: its decimal digits, no leading zero. */
  function Str(n: nat): (s: string)
    ensures 1 <= |s|
    ensures forall i :: 0 <= i < |s| ==> IsDigit(s[i])
    ensures |s| > 1 ==> s[0] != '0'
  {
    if n < 10 then [Digit(n)] else Str(n / 10) + [Digit(n % 10)]
  }

  /** The value of a string of decimal digits. */
  function DecValue(s: string): nat
    requires forall i :: 0 <= i < |s| ==> IsDigit(s[i])
  {
    if s == [] then 0
    else
      assert IsDigit(s[|s| - 1]);
      DecValue(s[..|s| - 1]) * 10 + (s[|s| - 1] as int - '0' as int)
  }

  /** A string with no leading zero is the decimal form of exactly one number. */
  predicate Canonical(s: string) {
    1 <= |s| && (forall i :: 0 <= i < |s| ==> IsDigit(s[i])) && (|s| > 1 ==> s[0] != '0')
  }

  lemma DigitValue(d: int)
    requires 0 <= d < 10
    ensures IsDigit(Digit(d)) && Digit(d) as int - '0' as int == d
  {
  }

  /** Reading back what `Str` wrote gives the number. */
  lemma {:induction false} DecValueOfStr(n: nat)
    ensures DecValue(Str(n)) == n
  {
    if n < 10 {
      DigitValue(n);
    } else {
      DecValueOfStr(n / 10);
      DigitValue(n % 10);
      assert Str(n)[..|Str(n)| - 1] == Str(n / 10);
    }
  }

  /** A canonical digit string of two or more digits is at least ten. */
  lemma {:induction false} CanonicalAtLeastTen(s: string)
    requires Canonical(s) && |s| > 1
    ensures DecValue(s) >= 10
  {
    var init := s[..|s| - 1];
    assert Canonical(init) && init[0] == s[0];
    if |init| > 1 {
      CanonicalAtLeastTen(init);
    } else {
      assert init == [s[0]];
      assert DecValue(init) == DecValue([]) * 10 + (s[0] as int - '0' as int);
    }
  }

  /** Writing out what a canonical string denotes gives the string back. */
  lemma {:induction false} StrOfDecValue(s: string)
    requires Canonical(s)
    ensures Str(DecValue(s)) == s
  {
    var n := DecValue(s);
    var d := s[|s| - 1] as int - '0' as int;
    if |s| == 1 {
      assert s[..0] == [];
      assert n == DecValue([]) * 10 + d;
      assert Str(n) == [Digit(d)];
    } else {
      var init := s[..|s| - 1];
      assert Canonical(init) by { assert init[0] == s[0]; }
      CanonicalAtLeastTen(s);
      assert n / 10 == DecValue(init) && n % 10 == d;
      StrOfDecValue(init);
      assert Digit(d) == s[|s| - 1];
      assert s == init + [s[|s| - 1]];
    }
  }

  /** `template.format(arg)` for templates whose only placeholder is `{0}`:
      every `{0}` is replaced by `arg`, everything else is kept. */
  function Format(template: string, arg: string): string
    decreases |template|
  {
    if |template| >= 3 && template[0] == '{' && template[1] == '0' && template[2] == '}'
    then arg + Format(template[3..], arg)
    else if template == [] then []
    else [template[0]] + Format(template[1..], arg)
  }

  /** A template without braces comes out unchanged. */
  lemma {:induction false} FormatPlain(t: string, a: string)
    requires '{' !in t
    ensures Format(t, a) == t
  {
    if t != [] {
      assert t[0] in t;
      assert forall c :: c in t[1..] ==> c in t;
      FormatPlain(t[1..], a);
    }
  }

  /** A template with a single placeholder between brace-free parts has the
      argument put in its place. */
  lemma {:induction false} FormatOne(p: string, q: string, a: string)
    requires '{' !in p && '{' !in q
    ensures Format(p + "{0}" + q, a) == p + a + q
  {
    if p == [] {
      FormatHole(q, a);
    } else {
      FormatText(p, q, a);
      FormatOne(p[1..], q, a);
      assert p + a + q == [p[0]] + (p[1..] + a + q);
    }
  }

  /** A placeholder followed by brace-free text. */
  lemma FormatHole(q: string, a: string)
    requires '{' !in q
    ensures Format([] + "{0}" + q, a) == a + q
  {
    FormatPlain(q, a);
    var t := [] + "{0}" + q;
    assert t[0] == '{' && t[1] == '0' && t[2] == '}' && t[3..] == q;
  }

  /** A leading character other than a brace is copied. */
  lemma FormatText(p: string, q: string, a: string)
    requires p != [] && p[0] != '{'
    ensures '{' !in p ==> '{' !in p[1..]
    ensures Format(p + "{0}" + q, a) == [p[0]] + Format(p[1..] + "{0}" + q, a)
  {
    var t := p + "{0}" + q;
    assert t[0] == p[0] && t[1..] == p[1..] + "{0}" + q;
    assert p == [p[0]] + p[1..];
  }
}

=== FILE: vartypes.dfy ===
/** The SNMP scalar types: each object owns a ctypes cell (`_cvar`) that
    net-snmp reads through a watcher, and `update`/`increment` rewrite it
    in place. The fixed-size integer types share one class tagged with
    their kind; Counter64, TruthValue, IpAddress and the string types,
    which keep a different cell or a different interface, have their own. */
module VarTypes {
  import opened PyRuntime
  import opened CTypes
  import NetSnmpApi
  import opened DottedQuad

  /** Maximum string size supported by the wrapper. */
  const MAX_STRING_SIZE: nat := 1024

  /** Watcher flags from net-snmp's agent/watcher.h. */
  const WATCHER_FIXED_SIZE: int := 0x01
  const WATCHER_MAX_SIZE: int := 0x02

  /** The TruthValue textual convention of RFC 2579: true(1), false(2). */
  const TV_TRUE: int := 1
  const TV_FALSE: int := 2

  /** ASN.1 type tags from net-snmp's asn1.h and snmp_impl.h. */
  const ASN_INTEGER: int := 0x02
  const ASN_OCTET_STR: int := 0x04
  const ASN_IPADDRESS: int := 0x40
  const ASN_COUNTER: int := 0x41
  const ASN_GAUGE: int := 0x42
  const ASN_UNSIGNED: int := 0x42
  const ASN_TIMETICKS: int := 0x43
  const ASN_COUNTER64: int := 0x46

  /** `sizeof(counter64)`: two `c_ulong` words. */
  const COUNTER64_SIZE: nat := 16

  /** Python's `val >> n` for n = 32 and 64: floor division by 2^n
      (Dafny's division by a positive number floors as well). */
  function Shr32(val: int): int { val / TWO_32 }
  function Shr64(val: int): int { val / TWO_64 }

  /** Python's `val & 0xFFFFFFFF` and `val & 0xFFFFFFFFFFFFFFFF`: Python
      reads a negative int as infinite two's complement, so the mask keeps
      the low bits, which is the non-negative remainder. */
  function Mask32(val: int): int { val % TWO_32 }
  function Mask64(val: int): int { val % TWO_64 }

  // ---------------------------------------------------------------------
  // Fixed-size integer scalars

  datatype FixedKind = Integer32 | Unsigned32 | Counter32 | Gauge32 | TimeTicks

  function CTypeOf(k: FixedKind): CType {
    if k == Integer32 then CLong else CULong
  }

  function AsnTypeOf(k: FixedKind): int {
    match k
    case Integer32 => ASN_INTEGER
    case Unsigned32 => ASN_UNSIGNED
    case Counter32 => ASN_COUNTER
    case Gauge32 => ASN_GAUGE
    case TimeTicks => ASN_TIMETICKS
  }

  /** The value Counter32's `update(val)` stores: values with bits above
      bit 31 (negative ones included) are cut to their low 32 bits. */
  function Counter32Updated(val: int): (r: int)
    ensures r == val % TWO_32
    ensures 0 <= val < TWO_32 ==> r == val
  {
    if Shr32(val) != 0 then Mask32(val) else val
  }

  /** The value Gauge32's `update(val)` stores: anything with bits above
      bit 31, a negative number included, becomes 0xFFFFFFFF. */
  function Gauge32Updated(val: int): (r: int)
    ensures r == if 0 <= val < TWO_32 then val else 0xFFFFFFFF
    ensures 0 <= r < TWO_32
  {
    if Shr32(val) != 0 then 0xFFFFFFFF else val
  }

  /** The cell a scalar of kind `k` holds after `update(val)`: Counter32
      and Gauge32 adjust the value first, then ctypes stores it. */
  function Updated(k: FixedKind, val: int): (r: int)
    ensures InRange(CTypeOf(k), r)
    ensures k == Counter32 ==> r == val % TWO_32
    ensures k == Gauge32 ==> r == if 0 <= val < TWO_32 then val else 0xFFFFFFFF
    ensures k != Counter32 && k != Gauge32 ==> r == Store(CTypeOf(k), val)
  {
    match k
    case Counter32 => Store(CULong, Counter32Updated(val))
    case Gauge32 => Store(CULong, Gauge32Updated(val))
    case _ => Store(CTypeOf(k), val)
  }

  /** Integer32, Unsigned32, Counter32, Gauge32 and TimeTicks. */
  class FixedVar {
    const kind: FixedKind
    const asnType: int
    var cell: int
    const dataSize: nat
    const maxSize: nat
    const watcherFlags: int

    ghost predicate Valid()
      reads this
    {
      && InRange(CTypeOf(kind), cell)
      && asnType == AsnTypeOf(kind)
      && dataSize == maxSize == SizeOf(CTypeOf(kind))
      && watcherFlags == WATCHER_FIXED_SIZE
    }

    /** The cell is created from `initval` as ctypes stores it; no
        32-bit cut or saturation is applied at construction. */
    constructor (kind: FixedKind, initval: int := 0)
      ensures Valid()
      ensures this.kind == kind
      ensures cell == Store(CTypeOf(kind), initval)
    {
      this.kind := kind;
      asnType := AsnTypeOf(kind);
      cell := Store(CTypeOf(kind), initval);
      dataSize := SizeOf(CTypeOf(kind));
      maxSize := SizeOf(CTypeOf(kind));
      watcherFlags := WATCHER_FIXED_SIZE;
    }

    function Value(): (v: PyValue)
      reads this
      ensures v.PyInt? && v.i == cell
    {
      ReadValue(PyInt(cell))
    }

    method Update(val: int)
      requires Valid()
      modifies this
      ensures Valid()
      ensures cell == Updated(kind, val)
    {
      var v := val;
      if kind == Counter32 {
        if Shr32(v) != 0 {
          v := Mask32(v);
        }
      } else if kind == Gauge32 {
        if Shr32(v) != 0 {
          v := 0xFFFFFFFF;
        }
      }
      cell := Store(CTypeOf(kind), v);
    }

    /** Only Counter32 and Gauge32 have `increment`. */
    method Increment(count: int := 1)
      requires Valid()
      requires kind == Counter32 || kind == Gauge32
      modifies this
      ensures Valid()
      ensures cell == Updated(kind, old(cell) + count)
      ensures kind == Counter32 ==> cell == (old(cell) + count) % TWO_32
    {
      var v := Value();
      Update(v.i + count);
    }
  }

  // ---------------------------------------------------------------------
  // Counter64

  /** The value Counter64's `update(val)` hands to the counter64 setter. */
  function Counter64Updated(val: int): (r: int)
    ensures r == val % TWO_64
    ensures 0 <= r < TWO_64
    ensures 0 <= val < TWO_64 ==> r == val
  {
    if Shr64(val) != 0 then Mask64(val) else val
  }

  class Counter64Var {
    const cvar: NetSnmpApi.Counter64
    const asnType: int
    const dataSize: nat
    const maxSize: nat
    const watcherFlags: int

    ghost predicate Valid()
      reads this, cvar
    {
      && cvar.Valid()
      && asnType == ASN_COUNTER64
      && dataSize == maxSize == COUNTER64_SIZE
      && watcherFlags == WATCHER_FIXED_SIZE
    }

    /** The counter64 structure is built from `initval` directly; the
        64-bit cut of `update` is not applied. */
    constructor (initval: int := 0)
      ensures Valid() && fresh(cvar)
      ensures cvar.high == NetSnmpApi.SplitHigh(initval) && cvar.low == NetSnmpApi.SplitLow(initval)
      ensures 0 <= initval < TWO_64 ==> Value() == PyInt(initval)
    {
      cvar := new NetSnmpApi.Counter64(initval);
      asnType := ASN_COUNTER64;
      dataSize := COUNTER64_SIZE;
      maxSize := COUNTER64_SIZE;
      watcherFlags := WATCHER_FIXED_SIZE;
    }

    function Value(): (v: PyValue)
      reads this, cvar
      ensures v.PyInt? && v.i == cvar.Value()
    {
      ReadValue(PyInt(cvar.Value()))
    }

    method Update(val: int)
      requires Valid()
      modifies cvar
      ensures Valid()
      ensures Value() == PyInt(Counter64Updated(val))
      ensures cvar.high == NetSnmpApi.SplitHigh(Counter64Updated(val))
    {
      var v := val;
      if Shr64(v) != 0 {
        v := Mask64(v);
      }
      cvar.SetValue(v);
    }

    method Increment(count: int := 1)
      requires Valid()
      modifies cvar
      ensures Valid()
      ensures Value() == PyInt((old(cvar.Value()) + count) % TWO_64)
    {
      var v := Value();
      Update(v.i + count);
    }
  }

  // ---------------------------------------------------------------------
  // TruthValue

  const TRUTH_VALUE_ERROR: string := "TruthValue must be True or False"

  /** A bool interface over an integer cell holding TV_TRUE or TV_FALSE. */
  class TruthValue {
    var cell: int
    const asnType: int
    const dataSize: nat
    const maxSize: nat
    const watcherFlags: int

    ghost predicate Valid()
      reads this
    {
      && (cell == TV_TRUE || cell == TV_FALSE)
      && asnType == ASN_INTEGER
      && dataSize == maxSize == SizeOf(CInt)
      && watcherFlags == WATCHER_FIXED_SIZE
    }

    /** Any truthy `initval` becomes true, anything else false. */
    constructor (initval: PyValue := PyBool(false))
      ensures Valid()
      ensures Value() == PyBool(Truthy(initval))
    {
      cell := if Truthy(initval) then TV_TRUE else TV_FALSE;
      asnType := ASN_INTEGER;
      dataSize := SizeOf(CInt);
      maxSize := SizeOf(CInt);
      watcherFlags := WATCHER_FIXED_SIZE;
    }

    function Value(): (v: PyValue)
      reads this
      ensures v.PyBool? && (v.b <==> cell == TV_TRUE)
    {
      PyBool(cell == TV_TRUE)
    }

    /** Only a bool is accepted; anything else raises and leaves the cell. */
    method Update(val: PyValue) returns (r: Outcome)
      requires Valid()
      modifies this
      ensures Valid()
      ensures r.Pass? <==> val.PyBool?
      ensures val.PyBool? ==> Value() == val
      ensures !val.PyBool? ==> r == Fail(NetSnmpAgentException(TRUTH_VALUE_ERROR)) && cell == old(cell)
    {
      if val.PyBool? {
        cell := if val.b then TV_TRUE else TV_FALSE;
        r := Pass;
      } else {
        r := Fail(NetSnmpAgentException(TRUTH_VALUE_ERROR));
      }
    }
  }

  // ---------------------------------------------------------------------
  // IpAddress

  /** The word `update(val)` stores, or what it raises: a false value
      stands for "0.0.0.0", a string goes through `inet_aton` and
      `struct.unpack`, anything else is refused by `inet_aton`. */
  function AddressWord(val: PyValue): (r: Result<int>)
    ensures r.Ok? ==> 0 <= r.value < TWO_32
    ensures !Truthy(val) ==> r == Ok(0)
    ensures val.PyStr? && val.s != [] ==> (r.Ok? <==> InetAton(val.s).Some?)
    ensures val.PyStr? && r.Ok? ==> ShowWord(r.value) == if val.s == [] then "0.0.0.0" else val.s
    ensures val.PyStr? && val.s != [] && InetAton(val.s).None? ==> r == Err(SocketError)
    ensures Truthy(val) && !val.PyStr? ==> r == Err(TypeError)
  {
    ZeroAddress();
    var arg := if Truthy(val) then val else PyStr("0.0.0.0");
    if !arg.PyStr? then Err(TypeError)
    else
      match WordOf(arg.s)
      case None => Err(SocketError)
      case Some(w) => ShowWordOf(arg.s); Ok(w)
  }

  /** IPv4 addresses as dotted-quad strings over a `c_uint` cell holding
      the octets in network order. */
  class IpAddress {
    var cell: int
    const asnType: int
    const dataSize: nat
    const maxSize: nat
    const watcherFlags: int

    ghost predicate Valid()
      reads this
    {
      && 0 <= cell < TWO_32
      && asnType == ASN_IPADDRESS
      && dataSize == maxSize == SizeOf(CUInt)
      && watcherFlags == WATCHER_FIXED_SIZE
    }

    /** The first step of construction: a zero cell. */
    constructor Zero()
      ensures Valid() && cell == 0
    {
      cell := 0;
      asnType := ASN_IPADDRESS;
      dataSize := SizeOf(CUInt);
      maxSize := SizeOf(CUInt);
      watcherFlags := WATCHER_FIXED_SIZE;
    }

    /** `IpAddress(initval)`: a zero cell, then `update(initval)`, whose
        exception escapes the construction. */
    static method Create(initval: PyValue := PyStr("0.0.0.0")) returns (r: Result<IpAddress>)
      ensures r.Ok? <==> AddressWord(initval).Ok?
      ensures r.Err? ==> r.error == AddressWord(initval).error
      ensures r.Ok? ==> fresh(r.value) && r.value.Valid() && r.value.cell == AddressWord(initval).value
    {
      var ip := new IpAddress.Zero();
      var outcome := ip.Update(initval);
      if outcome.Fail? {
        return Err(outcome.error);
      }
      return Ok(ip);
    }

    function Value(): (v: PyValue)
      reads this
      requires Valid()
      ensures v.PyStr? && WordOf(v.s) == Some(cell)
    {
      WordOfShow(cell);
      PyStr(ShowWord(cell))
    }

    /** The word handed to net-snmp: the cell itself, or, when used as a
        table index, a swapped copy; the cell is left as it is. */
    function Cref(isTableIndex: bool := false): (w: int)
      reads this
      requires Valid()
      ensures 0 <= w < TWO_32
      ensures !isTableIndex ==> w == cell
      ensures isTableIndex ==> PackLE(w, 4) == Reverse4(PackLE(cell, 4))
      ensures isTableIndex ==> Swap(w) == cell
    {
      if !isTableIndex then cell
      else
        SwapOctets(cell);
        SwapSwap(cell);
        Swap(cell)
    }

    method Update(val: PyValue) returns (r: Outcome)
      requires Valid()
      modifies this
      ensures Valid()
      ensures r.Pass? <==> AddressWord(val).Ok?
      ensures r.Pass? ==> cell == AddressWord(val).value
      ensures r.Fail? ==> r.error == AddressWord(val).error && cell == old(cell)
      ensures val.PyStr? && InetAton(val.s).Some? ==> r.Pass? && Value() == val
      ensures !Truthy(val) ==> r.Pass? && cell == 0
    {
      var arg := if Truthy(val) then val else PyStr("0.0.0.0");
      if !arg.PyStr? {
        return Fail(TypeError);
      }
      var word := WordOf(arg.s);
      if word.None? {
        return Fail(SocketError);
      }
      cell := word.value;
      r := Pass;
      if val.PyStr? && InetAton(val.s).Some? {
        ShowWordOf(val.s);
        WordOfShow(cell);
      }
    }
  }

  // ---------------------------------------------------------------------
  // OctetString and DisplayString

  datatype StringKind = OctetString | DisplayString

  /** The message of the exception `update` raises for a value longer than
      `max_size`. */
  function TruncatedMessage(len: nat, maxSize: nat): string {
    "Value passed to update() truncated: " + Str(len) + " > " + Str(maxSize) + " bytes!"
  }

  /** net-snmp's `netsnmp_watcher_info`, of which the wrapper touches the
      `data_size` field. */
  class WatcherInfo {
    var dataSize: nat

    constructor (dataSize: nat)
      ensures this.dataSize == dataSize
    {
      this.dataSize := dataSize;
    }
  }

  function Max(a: int, b: int): int {
    if a < b then b else a
  }

  /** A string scalar over a `create_string_buffer` of MAX_STRING_SIZE
      characters. `watcher` is assigned by whoever registers the object
      with net-snmp. */
  class StringVar {
    const kind: StringKind
    const asnType: int
    const buffer: array<char>
    var dataSize: nat
    const maxSize: nat
    const watcherFlags: int
    var watcher: WatcherInfo?

    ghost predicate Valid()
      reads this
    {
      && MAX_STRING_SIZE <= maxSize <= buffer.Length
      && dataSize <= buffer.Length
      && asnType == ASN_OCTET_STR
      && watcherFlags == WATCHER_MAX_SIZE
    }

    /** Construction when `initval` fits the buffer (ctypes raises
        otherwise, see Create). `_data_size` starts as the length of the
        buffer's C string; OctetString then resets it to `len(initval)`. */
    constructor (kind: StringKind, initval: string)
      requires |initval| <= MAX_STRING_SIZE
      ensures Valid() && fresh(buffer) && watcher == null && this.kind == kind
      ensures buffer.Length == maxSize == MAX_STRING_SIZE
      ensures buffer[..] == Written(Zeroed(MAX_STRING_SIZE), initval)
      ensures kind == OctetString ==> dataSize == |initval|
      ensures kind == DisplayString ==> dataSize == |UntilNul(initval)|
    {
      this.kind := kind;
      asnType := ASN_OCTET_STR;
      var buf := new char[MAX_STRING_SIZE](_ => NUL);
      forall i | 0 <= i < |initval| {
        buf[i] := initval[i];
      }
      if |initval| < MAX_STRING_SIZE {
        buf[|initval|] := NUL;
      }
      assert buf[..] == Written(Zeroed(MAX_STRING_SIZE), initval);
      buffer := buf;
      UntilNulOfWritten(Zeroed(MAX_STRING_SIZE), initval);
      var size := |UntilNul(buf[..])|;
      dataSize := size;
      maxSize := Max(size, MAX_STRING_SIZE);
      watcherFlags := WATCHER_MAX_SIZE;
      watcher := null;
      new;
      if kind == OctetString {
        dataSize := |initval|;
      }
    }

    /** `OctetString(initval)` / `DisplayString(initval)`: ctypes refuses an
        initial value longer than the buffer with ValueError. */
    static method Create(kind: StringKind, initval: string := "") returns (r: Result<StringVar>)
      ensures r.Err? <==> |initval| > MAX_STRING_SIZE
      ensures r.Err? ==> r.error == ValueError
      ensures r.Ok? ==> fresh(r.value) && fresh(r.value.buffer) && r.value.Valid()
      ensures r.Ok? ==> r.value.kind == kind && r.value.watcher == null
      ensures r.Ok? ==> r.value.maxSize == MAX_STRING_SIZE
      ensures r.Ok? ==> r.value.Value() == PyStr(if kind == OctetString then initval else UntilNul(initval))
    {
      if |initval| > MAX_STRING_SIZE {
        return Err(ValueError);
      }
      var s := new StringVar(kind, initval);
      UntilNulOfWritten(Zeroed(MAX_STRING_SIZE), initval);
      return Ok(s);
    }

    /** The bytes the watcher size (or, without a watcher, the recorded
        size) marks as the value. */
    function Size(): nat
      reads this, watcher
    {
      if watcher != null then watcher.dataSize else dataSize
    }

    /** OctetString: the first `Size()` characters of the raw buffer.
        DisplayString: `_VarType.value` of the buffer's C string. */
    function Value(): (v: PyValue)
      reads this, buffer, watcher
      ensures v.PyStr?
      ensures kind == OctetString ==> v.s == buffer[..if Size() < buffer.Length then Size() else buffer.Length]
      ensures kind == DisplayString ==> v.s == UntilNul(buffer[..]) && NUL !in v.s
    {
      match kind
      case OctetString =>
        PyStr(buffer[..if Size() < buffer.Length then Size() else buffer.Length])
      case DisplayString =>
        ReadValue(PyStr(UntilNul(buffer[..])))
    }

    /** ctypes refuses anything but a string with TypeError before the
        buffer changes. A string is written to the buffer first; a value
        over `max_size` then raises with `_data_size` untouched; otherwise
        both `_data_size` and the watcher's `data_size` become `len(val)`.
        Without a watcher the second assignment raises AttributeError
        after the first. */
    method Update(val: PyValue) returns (r: Outcome)
      requires Valid()
      modifies this, buffer, watcher
      ensures Valid() && watcher == old(watcher)
      ensures !val.PyStr? ==> r == Fail(TypeError) && buffer[..] == old(buffer[..]) && dataSize == old(dataSize)
      ensures val.PyStr? && |val.s| > buffer.Length ==>
                r == Fail(ValueError) && buffer[..] == old(buffer[..]) && dataSize == old(dataSize)
      ensures val.PyStr? && |val.s| <= buffer.Length ==> buffer[..] == Written(old(buffer[..]), val.s)
      ensures val.PyStr? && |val.s| <= buffer.Length && |val.s| > maxSize ==>
                r == Fail(NetSnmpAgentException(TruncatedMessage(|val.s|, maxSize))) && dataSize == old(dataSize)
      ensures val.PyStr? && |val.s| <= maxSize ==> dataSize == |val.s| && (r.Pass? <==> watcher != null)
      ensures val.PyStr? && |val.s| <= maxSize && watcher == null ==> r == Fail(AttributeError)
      ensures r.Pass? ==> val.PyStr? && watcher.dataSize == |val.s|
      ensures r.Pass? && kind == OctetString ==> Value() == val
      ensures r.Pass? && kind == DisplayString && NUL !in val.s ==> Value() == val
      ensures r.Fail? && watcher != null ==> watcher.dataSize == old(watcher.dataSize)
    {
      if !val.PyStr? {
        return Fail(TypeError);
      }
      var s := val.s;
      if |s| > buffer.Length {
        return Fail(ValueError);
      }
      forall i | 0 <= i < |s| {
        buffer[i] := s[i];
      }
      if |s| < buffer.Length {
        buffer[|s|] := NUL;
      }
      assert buffer[..] == Written(old(buffer[..]), s);
      if |s| > maxSize {
        return Fail(NetSnmpAgentException(TruncatedMessage(|s|, maxSize)));
      }
      dataSize := |s|;
      if watcher == null {
        return Fail(AttributeError);
      }
      watcher.dataSize := |s|;
      r := Pass;
      assert buffer[..|s|] == s;
      if NUL !in s {
        UntilNulOfWritten(old(buffer[..]), s);
        UntilNulOfNulFree(s);
      }
    }
  }
}
